=== FILE: README.md ===
# Dental clinic receptionist bot: the webhook state machine in Dafny

The bot is a Telegram webhook for a dental clinic (`app.py`). Each inbound
update is handled by one call of `webhook`. The call reads the chat id and the
stripped text, then runs through a fixed priority:

1. A malformed update is ignored.
2. `/start` resets the chat.
3. A chat that is registering goes through the language, name and phone steps.
4. A chat with no profile is pushed into registration.
5. A booking in progress goes through the service, doctor and date/time steps.
   A cancel word drops it.
6. The five main-menu buttons get their fixed replies.
7. Any other text goes to the AI receptionist.

The handler keeps three in-memory dictionaries: `USER_PROFILE`, `REG_STATE` and
`BOOKING_STATE`.

This project models that handler as a pure transition function,
`Bot.Step(state, event, admin, ai) -> Outcome(state', effects)`:

- The three dictionaries are the immutable maps of a `State`.
- The update is an `Event` whose chat id and text may each be missing.
- `admin` is the `ADMIN_CHAT_ID` setting.
- `ai` is the candidate text the AI reply carries. `None` means the reply had
  none.
- Every outbound HTTP call becomes an `Effect`:
  - `Send`: a reply in the chat, with its kind, salutation and keyboard;
  - `AskAI`: the question put to the AI;
  - `AdminNotify`: the booking summary mirrored to the admin chat.

The three helpers the handler uses are modelled on their own:

- `map_language_choice` is `Language.MapLanguageChoice`. It is shown equal to
  a first-match over a rule table.
- `decorate_with_name` is `Salutation.DecorateWithName`.
- `get_profile` is `Bot.GetProfile`.

Python's `str.strip`, `str.lower`, `in` on strings and `startswith` are
modelled character by character in module `Text`.

The files:

- `wrappers.dfy`: `Option`.
- `text.dfy`: strip, lower and substring search.
- `language.dfy`: the language classifier.
- `salutation.dfy`: the name salutation.
- `bot.dfy`: the state, events, effects and `Step`.
- `properties.dfy`: the invariant and the per-branch behaviour of `Step`.

Some behaviour of the handler worth knowing when reading the model:

- The phone number is whatever the user types at the phone step, stored as
  typed (app.py:245-252).
- The name step accepts any text as the name, a language-button label
  included (app.py:227-229).
- A booking ends with a free-text date and time, stored as typed
  (app.py:353-354).
- A transport error from the Gemini request is not caught (app.py:147-149).
  Only a reply without candidate text gets the fixed apology
  (app.py:151-154).

## Model

| member | source | states |
|---|---|---|
| Text.StripSpec | app.py:171 | `strip()` returns a contiguous slice of the input reached by cutting only whitespace (Python's `isspace` set) from both ends, and the slice neither starts nor ends with whitespace |
| Text.Strip | app.py:171 | The stripped text is no longer than the input and neither starts nor ends with whitespace |
| Text.StripOfUnique | app.py:171 | Only one text satisfies that characterisation, so it determines `strip()` completely |
| Text.StripBlank | app.py:171-173 | Stripping leaves nothing exactly when the text is all whitespace |
| Text.StripIdempotent | app.py:71 | Stripping the already stripped webhook text again (as `map_language_choice` does) changes nothing |
| Text.StripLowerCommute | app.py:71 | `strip().lower()` equals `lower().strip()`: lowering never creates or removes whitespace |
| Text.LowerIdempotent | app.py:71 | Lowering twice is lowering once |
| Text.Lower | app.py:308 | The lowered text has the input's length; no position holds a capital letter, each capital became the small letter whose upper case (by the separate table `UpperChar`) it is, and every other character is kept |
| Text.LowerUnique | app.py:308 | That per-position description fixes the lowered text completely: any text meeting it is `Lower(s)` |
| Text.StartsWith | app.py:303 | `t.startswith(p)` holds exactly when `p` occurs in `t` at position 0 |
| Text.Contains | app.py:72-78 | `k in t` holds exactly when `k` occurs at some position of `t` |
| Language.MapLanguageChoice | app.py:70-80 | The result, when present, is one of "fa", "en", "ar", "ru"; it is absent exactly when no line of the keyword table selects the stripped, lowered text |
| Language.Classify | app.py:72-80 | The keyword tests on the normalised text return one of the four codes, and nothing exactly when no line of the table selects the text |
| Language.MapLanguageChoiceIsFirstMatch | app.py:70-80 | The classifier equals the first line of the ordered table (fa: farsi/فارسی anywhere; en: english anywhere or exactly "en"; ar: arabic/العربية/عرب anywhere; ru: russian/рус anywhere) that selects the stripped, lowered text |
| Language.RejectedIffNoKeyword | app.py:71-80 | No language is chosen exactly when the normalised text is not "en" and none of the `in` tests finds its keyword in it |
| Language.FarsiHasPriority | app.py:72-73 | A text mentioning "farsi" or "فارسی" yields "fa" whatever other keywords it contains |
| Language.MapLanguageChoiceIgnoresStrip | app.py:71 | Surrounding whitespace does not affect the choice |
| Language.MapLanguageChoiceIgnoresCase | app.py:71 | Letter case does not affect the choice |
| Language.LanguageButtonsSelect | app.py:48-56 | Each of the four language-keyboard labels selects the language it names |
| Salutation.DecorateWithName | app.py:87-97 | Without a (non-empty) name the message is returned unchanged; with one, the result is the message behind a strictly non-empty prefix that contains the name |
| Salutation.DecorationIsPrefix | app.py:91-97 | The salutation depends only on name and language: decorating any message prepends the same prefix as decorating the empty one |
| Salutation.DecorateInjective | app.py:87-97 | Decoration loses nothing: distinct messages decorate to distinct texts |
| Salutation.OtherLanguagesUseEnglish | app.py:97 | Any language other than "fa", "ar", "ru" (or none) gets "Dear <name>, " |
| Bot.GetProfile | app.py:83-84 | The stored profile of the chat, or a profile with no name, phone or language when none is stored |
| Bot.EventText | app.py:171 | A missing text reads as empty; a present text is replaced by its strip (whitespace cut from both ends only), which neither starts nor ends with whitespace |
| Bot.Malformed | app.py:173 | An update is ignored exactly when it has no chat id, chat id 0, or a text that is missing or all whitespace |
| Bot.Step | app.py:165-469 | A malformed update (no chat id, chat id 0, or blank text after stripping) changes nothing and sends nothing; any other update changes only its own chat's entries and produces at least one effect |
| Bot.Start | app.py:179-190 | `/start` changes only the entries of its own chat |
| Bot.Register | app.py:195-280 | A registration step changes only the entries of its own chat |
| Bot.ForceRegistration | app.py:285-293 | The registration gate changes only the entries of its own chat |
| Bot.Serve | app.py:295-303 | Serving a registered chat changes only the entries of its own chat |
| Bot.Book | app.py:303-384 | A booking step changes only the entries of its own chat |
| Bot.Menu | app.py:389-469 | A menu reply or AI answer changes only the entries of its own chat |
| BotProperties.RegistrationTakesPrecedence | app.py:195-280 | While a registration is in progress, every update except `/start` gets a single plain registration reply; bookings stay as they are, and no booking step, menu reply or AI question happens, even for a menu button or with a booking open |
| BotProperties.StepPreservesInv | app.py:165-469 | Every update keeps the invariant: a booking implies a profile, a registration implies no profile, and every entry holds the keys its step needs (a completed profile has a non-empty name, a phone and a supported language) |
| BotProperties.RunPreservesInv | app.py:165-469 | Any sequence of updates keeps the invariant |
| BotProperties.ReachableInv | app.py:26-29 | Every state reachable from the empty dictionaries satisfies the invariant |
| BotProperties.OneReplyPerEvent | app.py:165-469 | A well-formed update gets exactly one reply in its own chat, not counting the admin copy (which reaches the same chat when `ADMIN_CHAT_ID` is that chat) |
| BotProperties.EffectsStayInChat | app.py:165-469 | Every reply goes to the chat the update came from; the only other effects are the AI question and the admin copy |
| BotProperties.StepReplyShape | app.py:165-469 | The effects are one reply, the AI question followed by the reply, or the reply followed by the admin copy |
| BotProperties.StartResets | app.py:179-190 | `/start` deletes the chat's profile and booking, restarts registration at the language step with nothing collected, and sends the welcome with the language keyboard, whatever the prior state |
| BotProperties.RegistrationLanguageStep | app.py:200-224 | At the language step, unrecognised text changes nothing and re-prompts with the language keyboard; a recognised language is recorded, the step becomes the name step and the name is asked in that language |
| BotProperties.RegistrationNameStep | app.py:227-242 | At the name step the text is stored verbatim as the name, the step becomes the phone step and the phone is asked in the recorded language (default "fa") |
| BotProperties.RegistrationPhoneStep | app.py:245-280 | At the phone step a profile with the collected name, the typed phone and the language (default "fa") is written, the registration state is removed, bookings are untouched and the completion message with the main keyboard is sent |
| BotProperties.ProfilesKeptOutsideStartAndPhone | app.py:179-252 | Apart from `/start` and the phone step, no update changes the profiles |
| BotProperties.UnregisteredGoesToRegistration | app.py:285-293 | A chat with neither profile nor registration is put at the language step and prompted, whatever it typed; no booking, menu reply or AI question is reachable |
| BotProperties.BookingCancel | app.py:308-319 | In a booking, a cancel word in any letter case deletes the booking and sends the saluted cancellation with the main keyboard |
| BotProperties.BookingAdvance | app.py:322-384 | Otherwise the text is stored verbatim: the service step stores the service and asks for the doctor, the doctor step stores the doctor and asks for the date and time, the date/time step deletes the booking, sends the saluted summary and mirrors it to the admin exactly when an admin chat is configured; profiles and registrations are untouched |
| BotProperties.BookingSummaryComplete | app.py:353-381 | In a reachable state a completed request carries the user's name, phone, service, doctor and the typed date/time, and the admin copy is the same summary |
| BotProperties.CommandBypassesBooking | app.py:303 | A command other than `/start` sent during a booking leaves every dictionary as it is |
| BotProperties.BookingStartsOnlyFromButton | app.py:436-448 | A chat without a booking gets one exactly when it is registered, not registering, and presses the "رزرو نوبت" button; the new booking starts at the service step with nothing collected |
| BotProperties.MenuButtonReplies | app.py:389-460 | Each menu button gets its own saluted reply with the main keyboard; only the booking button changes state |
| BotProperties.AiFallback | app.py:462-469 | The AI is asked exactly when the update comes from a registered chat, is not `/start`, is not taken by a booking in progress and is not a menu button; it is then asked the text with the profile's name and language (default "fa"), and its answer (or the fixed apology) is sent back saluted, with no state change |
| BotProperties.AiReplyIsSalutedAnswer | app.py:465-468 | The text sent for an AI answer is the answer decorated with the user's name: it ends with the answer and is longer exactly when the profile has a name |
| Bot.ReplyText | app.py:312-468 | The text sent for a reply ends with its body (the AI answer, or the fixed text of its kind) and is longer exactly when the reply is saluted and the user has a non-empty name |

## Left out

- HTTP transport: `send_message`, the Gemini request and the admin send are
  effects, not calls. A failing user-facing send, or a failing Gemini request
  (app.py:147-149, outside any `try`), would abort the handler part-way, for
  example leaving the booking state in place when the confirmation fails to
  send. That is not modelled: the model takes those to succeed. A failing admin
  send is swallowed by the `try` at app.py:377-381 and the booking is still
  deleted, which the model's unconditional `AdminNotify` already matches.
- The Gemini request and response are not modelled: no prompt construction, no
  HTTP timeout, no JSON shape. The model takes as input the candidate text the
  reply carries, or its absence, which selects the fixed apology.
- Message bodies and keyboard layouts: each reply is identified by its
  `MsgKind` and keyboard. The texts are constants of the program and carry no
  logic. The exception is the salutation, which is modelled.
- Text.LowerChar: lowers only ASCII and the basic Cyrillic block (U+0400 to
  U+042F). Other cased scripts, and Unicode's length-changing lowercase
  mappings, are not modelled. All the keywords the bot compares against are
  Latin, Cyrillic, Arabic or Persian, but the restriction can still change a
  result: Python lowers "FARSİ" (capital dotted I, U+0130) to "farsi" followed
  by U+0307, which contains "farsi" and yields "fa", while the model keeps
  U+0130 and yields no language.
- Bot.Step: chat ids are taken to be integers. A string id would be a
  separate dictionary key from the equal number, and a truthy non-string
  text raises at `.strip()` (a falsy one reads as empty). Neither is
  modelled.
- The admin chat id is taken as given. A value that `int()` rejects raises
  inside the `try`, which is swallowed. The model still shows it as an
  attempted `AdminNotify`.
- Bot.Start, Bot.Register, Bot.ForceRegistration, Bot.Serve, Bot.Book,
  Bot.Menu: their own contracts state only that the other chats' entries are
  kept. Their exact per-branch results are stated by the `BotProperties`
  lemmas over `Step`.
- FastAPI routing, the `/` health route, environment-variable checks at start
  and the keyboard builders are not modelled.
- Concurrency and persistence are not modelled. The dictionaries live in one
  process, and each webhook call is taken as one atomic step. The handler is
  async, though: at the date/time step (app.py:366-383) the booking is
  deleted only after two awaited sends. A second update for the same chat
  handled in between still sees the date/time step open, and produces a
  second request. A cancel or `/start` handled in between deletes the
  booking first, and the final `del BOOKING_STATE[chat_id]` then raises
  KeyError. The model has no interleaving, so it shows neither.

=== FILE: bot.dfy ===
/** The webhook handler (app.py:165-469) as a pure transition function.

    The three process-wide dictionaries of app.py:27-29 become the immutable
    maps of a `State`; one inbound Telegram update becomes an `Event`; every
    outbound HTTP call the handler would make becomes an `Effect`. The literal
    message bodies are not modelled: a reply is identified by its `MsgKind`,
    the salutation `decorate_with_name` would put in front of it, and the
    keyboard attached to it. */
module Bot {
  import opened Wrappers
  import opened Text
  import opened Language
  import opened Salutation

  type ChatId = int

  /** A `USER_PROFILE` entry `{name, phone, lang}`; a key may be absent. */
  datatype Profile = Profile(name: Option<string>, phone: Option<string>, lang: Option<string>)

  /** The value of a `REG_STATE` entry's "step" key. */
  datatype RegStep = LangStep | NameStep | PhoneStep

  /** A `REG_STATE` entry `{step, lang?, name?}`. */
  datatype RegState = RegState(step: RegStep, lang: Option<string>, name: Option<string>)

  /** The value of a `BOOKING_STATE` entry's "step" key. */
  datatype BookingStep = ServiceStep | DoctorStep | DateTimeStep

  /** A `BOOKING_STATE` entry `{step, service?, doctor?}`. */
  datatype BookingState = BookingState(step: BookingStep, service: Option<string>, doctor: Option<string>)

  datatype State = State(
    profiles: map<ChatId, Profile>,
    reg: map<ChatId, RegState>,
    booking: map<ChatId, BookingState>)

  /** The state the process starts in. */
  const Initial := State(map[], map[], map[])

  /** The parts of a Telegram update the handler reads: `message.chat.id` and
      `message.text`, either of which may be missing. */
  datatype Event = Event(chat: Option<ChatId>, text: Option<string>)

  /** The booking request mirrored to the user and to the admin chat
      (app.py:356-364). */
  datatype Summary = Summary(
    name: Option<string>,
    phone: Option<string>,
    service: Option<string>,
    doctor: Option<string>,
    datetime: string,
    chat: ChatId)

  datatype Keyboard = NoKeyboard | LanguageKeyboard | MainKeyboard

  /** Which reply the handler sends; the bodies themselves are fixed texts. */
  datatype MsgKind =
    | Welcome                     // greeting after /start, asks for a language
    | ChooseLanguageAgain         // the text named no supported language
    | AskName(lang: string)
    | AskPhone(lang: string)
    | Registered(who: Option<string>, lang: string)
    | RegisterFirst               // unregistered user forced into registration
    | BookingCancelled
    | AskDoctor
    | AskDateTime
    | BookingReceived(summary: Summary)
    | ServicesList
    | WorkingHours
    | ClinicAddress
    | AskService
    | AskSecretary
    | AiAnswer(answer: string)

  /** `Saluted(name, lang)`: the body is passed through
      `decorate_with_name(body, name, lang)` before sending. */
  datatype Salute = Plain | Saluted(name: Option<string>, lang: string)

  datatype Effect =
    | Send(to: ChatId, kind: MsgKind, salute: Salute, keyboard: Keyboard)
    | AskAI(question: string, name: Option<string>, lang: string)
    | AdminNotify(admin: string, summary: Summary)

  datatype Outcome = Outcome(state: State, effects: seq<Effect>)

  const StartCommand: string := "/start"
  const CancelWords: set<string> := {"لغو", "انصراف", "cancel"}
  const ServicesButton: string := "خدمات"
  const HoursButton: string := "ساعات کاری"
  const BookButton: string := "رزرو نوبت"
  const AddressButton: string := "آدرس مرکز"
  const SecretaryButton: string := "سوال از منشی"
  const MenuButtons: set<string> :=
    {ServicesButton, HoursButton, AddressButton, BookButton, SecretaryButton}

  /** The language assumed when none was recorded. */
  const DefaultLang: string := "fa"

  /** What `ask_gemini` returns when the reply holds no candidate text. */
  const AiApology: string :=
    "متأسفانه الان نمی\U{200C}توانم پاسخ دقیقی بدهم. لطفاً چند لحظه بعد دوباره تلاش کنید."

  /** `(message.get("text") or "").strip()`: a missing text reads as empty,
      and a present one is cut down to its strip, which never starts or ends
      with whitespace. */
  function EventText(ev: Event): (r: string)
    ensures ev.text.None? ==> r == []
    ensures |r| <= |ev.text.GetOr("")|
    ensures r == [] || (!IsSpace(r[0]) && !IsSpace(r[|r| - 1]))
    ensures ev.text.Some? ==> IsStripOf(ev.text.value, r)
  {
    StripSpec(ev.text.GetOr(""));
    Strip(ev.text.GetOr(""))
  }

  /** `not chat_id or not text`: no chat id, chat id 0, or a text that is
      missing or all whitespace. */
  predicate Malformed(ev: Event): (r: bool)
    ensures r <==> ev.chat.None? || ev.chat.value == 0 || AllSpace(ev.text.GetOr(""))
  {
    StripBlank(ev.text.GetOr(""));
    ev.chat.None? || ev.chat.value == 0 || EventText(ev) == []
  }

  /** `ADMIN_CHAT_ID` is set and non-empty. */
  predicate AdminConfigured(admin: Option<string>) {
    admin.Some? && admin.value != []
  }

  /** The three dictionaries agree everywhere except possibly at key `c`. */
  predicate OnlyChatChanged(s: State, t: State, c: ChatId) {
    && t.profiles - {c} == s.profiles - {c}
    && t.reg - {c} == s.reg - {c}
    && t.booking - {c} == s.booking - {c}
  }

  /** `get_profile`: the stored profile, or the empty dictionary. */
  function GetProfile(profiles: map<ChatId, Profile>, c: ChatId): (p: Profile)
    ensures c in profiles ==> p == profiles[c]
    ensures c !in profiles ==> p.name.None? && p.phone.None? && p.lang.None?
  {
    if c in profiles then profiles[c] else Profile(None, None, None)
  }

  /** One webhook call. `admin` is the `ADMIN_CHAT_ID` setting; `ai` is the
      candidate text the AI reply carries, `None` when it has none. */
  function Step(s: State, ev: Event, admin: Option<string>, ai: Option<string>): (r: Outcome)
    ensures Malformed(ev) ==> r.state == s && r.effects == []
    ensures !Malformed(ev) ==> OnlyChatChanged(s, r.state, ev.chat.value) && r.effects != []
  {
    if Malformed(ev) then Outcome(s, [])
    else
      var c := ev.chat.value;
      var text := EventText(ev);
      if text == StartCommand then Start(s, c)
      else if c in s.reg then Register(s, c, text)
      else if c !in s.profiles then ForceRegistration(s, c)
      else Serve(s, c, text, admin, ai)
  }

  /** `/start`: forget the profile and any booking, restart registration. */
  function Start(s: State, c: ChatId): (r: Outcome)
    ensures OnlyChatChanged(s, r.state, c)
  {
    Outcome(
      State(s.profiles - {c}, s.reg[c := RegState(LangStep, None, None)], s.booking - {c}),
      [Send(c, Welcome, Plain, LanguageKeyboard)])
  }

  /** One step of the registration flow for a chat that has a `REG_STATE`. */
  function Register(s: State, c: ChatId, text: string): (r: Outcome)
    requires c in s.reg
    ensures OnlyChatChanged(s, r.state, c)
  {
    var st := s.reg[c];
    match st.step
    case LangStep =>
      var code := MapLanguageChoice(text);
      if code.None? then
        Outcome(s, [Send(c, ChooseLanguageAgain, Plain, LanguageKeyboard)])
      else
        Outcome(
          s.(reg := s.reg[c := st.(lang := code, step := NameStep)]),
          [Send(c, AskName(code.value), Plain, NoKeyboard)])
    case NameStep =>
      Outcome(
        s.(reg := s.reg[c := st.(name := Some(text), step := PhoneStep)]),
        [Send(c, AskPhone(st.lang.GetOr(DefaultLang)), Plain, NoKeyboard)])
    case PhoneStep =>
      var lang := st.lang.GetOr(DefaultLang);
      Outcome(
        State(s.profiles[c := Profile(st.name, Some(text), Some(lang))], s.reg - {c}, s.booking),
        [Send(c, Registered(st.name, lang), Plain, MainKeyboard)])
  }

  /** A chat with neither a profile nor a registration in progress. */
  function ForceRegistration(s: State, c: ChatId): (r: Outcome)
    ensures OnlyChatChanged(s, r.state, c)
  {
    Outcome(
      s.(reg := s.reg[c := RegState(LangStep, None, None)]),
      [Send(c, RegisterFirst, Plain, LanguageKeyboard)])
  }

  /** A registered chat: the booking flow if one is in progress and the text
      is not a command, otherwise the menu buttons and the AI fallback. */
  function Serve(s: State, c: ChatId, text: string, admin: Option<string>, ai: Option<string>): (r: Outcome)
    requires c in s.profiles
    ensures OnlyChatChanged(s, r.state, c)
  {
    var p := GetProfile(s.profiles, c);
    var salute := Saluted(p.name, p.lang.GetOr(DefaultLang));
    if c in s.booking && !StartsWith(text, "/") then Book(s, c, text, p, salute, admin)
    else Menu(s, c, text, p, salute, ai)
  }

  function Book(s: State, c: ChatId, text: string, p: Profile, salute: Salute, admin: Option<string>): (r: Outcome)
    requires c in s.booking
    ensures OnlyChatChanged(s, r.state, c)
  {
    var b := s.booking[c];
    if Lower(text) in CancelWords then
      Outcome(s.(booking := s.booking - {c}), [Send(c, BookingCancelled, salute, MainKeyboard)])
    else
      match b.step
      case ServiceStep =>
        Outcome(
          s.(booking := s.booking[c := b.(service := Some(text), step := DoctorStep)]),
          [Send(c, AskDoctor, salute, MainKeyboard)])
      case DoctorStep =>
        Outcome(
          s.(booking := s.booking[c := b.(doctor := Some(text), step := DateTimeStep)]),
          [Send(c, AskDateTime, salute, MainKeyboard)])
      case DateTimeStep =>
        var summary := Summary(p.name, p.phone, b.service, b.doctor, text, c);
        Outcome(
          s.(booking := s.booking - {c}),
          [Send(c, BookingReceived(summary), salute, MainKeyboard)]
            + (if AdminConfigured(admin) then [AdminNotify(admin.value, summary)] else []))
  }

  function Menu(s: State, c: ChatId, text: string, p: Profile, salute: Salute, ai: Option<string>): (r: Outcome)
    ensures OnlyChatChanged(s, r.state, c)
  {
    if text == ServicesButton then Outcome(s, [Send(c, ServicesList, salute, MainKeyboard)])
    else if text == HoursButton then Outcome(s, [Send(c, WorkingHours, salute, MainKeyboard)])
    else if text == AddressButton then Outcome(s, [Send(c, ClinicAddress, salute, MainKeyboard)])
    else if text == BookButton then
      Outcome(
        s.(booking := s.booking[c := BookingState(ServiceStep, None, None)]),
        [Send(c, AskService, salute, MainKeyboard)])
    else if text == SecretaryButton then Outcome(s, [Send(c, AskSecretary, salute, MainKeyboard)])
    else
      Outcome(s, [
        AskAI(text, p.name, p.lang.GetOr(DefaultLang)),
        Send(c, AiAnswer(ai.GetOr(AiApology)), salute, MainKeyboard)])
  }

  /** The text a `Send` puts on the wire, given the fixed bodies of the
      non-AI replies. */
  function ReplyText(e: Effect, body: MsgKind -> string): (r: string)
    requires e.Send?
    ensures var raw := if e.kind.AiAnswer? then e.kind.answer else body(e.kind);
      && |raw| <= |r| && r[|r| - |raw|..] == raw
      && (|raw| < |r| <==> e.salute.Saluted? && HasName(e.salute.name))
  {
    var raw := if e.kind.AiAnswer? then e.kind.answer else body(e.kind);
    match e.salute
    case Plain => raw
    case Saluted(n, l) => DecorateWithName(raw, n, Some(l))
  }

  /** Feed a sequence of updates to the handler, each with the AI reply it
      would receive. */
  datatype Input = Input(event: Event, ai: Option<string>)

  function Run(s: State, admin: Option<string>, inputs: seq<Input>): State
    decreases |inputs|
  {
    if inputs == [] then s
    else Run(Step(s, inputs[0].event, admin, inputs[0].ai).state, admin, inputs[1..])
  }
}

=== FILE: language.dfy ===
/** The language picker of the registration flow: `map_language_choice`
    (app.py:70-80) turns whatever the user typed or pressed into one of the
    four supported language codes, or into nothing. */
module Language {
  import opened Wrappers
  import opened Text

  /** The language codes the bot stores in a profile. */
  const Codes: set<string> := {"fa", "en", "ar", "ru"}

  /** One line of the classifier: the code it yields, the keywords that select
      it wherever they occur in the text, and the keywords that select it only
      when they are the whole text. */
  datatype Rule = Rule(code: string, anywhere: seq<string>, whole: seq<string>)

  /** The classifier as a table, in the order the lines are tried. */
  const Rules: seq<Rule> := [
    Rule("fa", ["farsi", "فارسی"], []),
    Rule("en", ["english"], ["en"]),
    Rule("ar", ["arabic", "العربية", "عرب"], []),
    Rule("ru", ["russian", "рус"], [])
  ]

  /** Some keyword of `ks` occurs in `t`. */
  predicate AnyOccurs(t: string, ks: seq<string>) {
    ks != [] && (Contains(t, ks[0]) || AnyOccurs(t, ks[1..]))
  }

  predicate Selects(rule: Rule, t: string) {
    AnyOccurs(t, rule.anywhere) || t in rule.whole
  }

  /** The reference classifier: the code of the first rule of the table that
      selects the (already normalised) text, if any. */
  function FirstMatch(rules: seq<Rule>, t: string): Option<string> {
    if rules == [] then None
    else if Selects(rules[0], t) then Some(rules[0].code)
    else FirstMatch(rules[1..], t)
  }

  /** `text.strip().lower()`. */
  function Normalize(text: string): string {
    Lower(Strip(text))
  }

  function MapLanguageChoice(text: string): (r: Option<string>)
    ensures r.Some? ==> r.value in Codes
    ensures r.None? <==> forall n :: 0 <= n < |Rules| ==> !Selects(Rules[n], Normalize(text))
  {
    Classify(Normalize(text))
  }

  /** The keyword tests of the classifier, on the normalised text: a code of
      one of the four languages, and none exactly when no line of the table
      selects the text. */
  function Classify(t: string): (r: Option<string>)
    ensures r.Some? ==> r.value in Codes
    ensures r.None? <==> forall n :: 0 <= n < |Rules| ==> !Selects(Rules[n], t)
  {
    RuleLines(t);
    if Contains(t, "farsi") || Contains(t, "فارسی") then Some("fa")
    else if Contains(t, "english") || t == "en" then Some("en")
    else if Contains(t, "arabic") || Contains(t, "العربية") || Contains(t, "عرب") then Some("ar")
    else if Contains(t, "russian") || Contains(t, "рус") then Some("ru")
    else None
  }

  /** The classifier tries the lines of the table in order and returns the
      code of the first line that selects the normalised text. */
  lemma MapLanguageChoiceIsFirstMatch(text: string)
    ensures MapLanguageChoice(text) == FirstMatch(Rules, Normalize(text))
  {
    var t := Normalize(text);
    RuleLines(t);
    var tail := Rules[1..][1..][1..];
    assert tail == [Rules[3]] && tail[1..] == [];
    assert FirstMatch(tail, t) == if Selects(Rules[3], t) then Some("ru") else None;
    assert FirstMatch(Rules[1..][1..], t)
      == if Selects(Rules[2], t) then Some("ar") else FirstMatch(tail, t);
    assert FirstMatch(Rules[1..], t)
      == if Selects(Rules[1], t) then Some("en") else FirstMatch(Rules[1..][1..], t);
  }

  /** Each line of the table tests exactly the keywords the classifier tests. */
  lemma RuleLines(t: string)
    ensures Selects(Rules[0], t) <==> Contains(t, "farsi") || Contains(t, "فارسی")
    ensures Selects(Rules[1], t) <==> Contains(t, "english") || t == "en"
    ensures Selects(Rules[2], t)
      <==> Contains(t, "arabic") || Contains(t, "العربية") || Contains(t, "عرب")
    ensures Selects(Rules[3], t) <==> Contains(t, "russian") || Contains(t, "рус")
  {
    AnyOccursPair(t, "farsi", "فارسی");
    AnyOccursPair(t, "russian", "рус");
    AnyOccursPair(t, "العربية", "عرب");
    var ar := ["arabic", "العربية", "عرب"];
    assert ar[1..] == ["العربية", "عرب"];
    assert AnyOccurs(t, ar) == (Contains(t, "arabic") || AnyOccurs(t, ar[1..]));
    var en := ["english"];
    assert en[1..] == [];
    assert AnyOccurs(t, en) == (Contains(t, "english") || AnyOccurs(t, []));
  }

  lemma AnyOccursPair(t: string, a: string, b: string)
    ensures AnyOccurs(t, [a, b]) <==> Contains(t, a) || Contains(t, b)
  {
    assert [a, b][1..] == [b] && [b][1..] == [];
    assert AnyOccurs(t, [b]) == (Contains(t, b) || AnyOccurs(t, []));
  }

  /** The classifier ignores surrounding whitespace: the webhook hands it text
      that is already stripped, and stripping again changes nothing. */
  lemma MapLanguageChoiceIgnoresStrip(text: string)
    ensures MapLanguageChoice(Strip(text)) == MapLanguageChoice(text)
  {
    StripIdempotent(text);
  }

  /** The classifier is case-insensitive (for the cased letters modelled). */
  lemma MapLanguageChoiceIgnoresCase(text: string)
    ensures MapLanguageChoice(Lower(text)) == MapLanguageChoice(text)
  {
    StripLowerCommute(text);
    LowerIdempotent(Strip(text));
  }

  /** Some keyword of `ks` occurs in `t` exactly when one of the `in`
      tests on the keywords succeeds. */
  lemma {:induction false} AnyOccursIff(t: string, ks: seq<string>)
    ensures AnyOccurs(t, ks) <==> exists i :: 0 <= i < |ks| && Contains(t, ks[i])
  {
    if ks != [] {
      AnyOccursIff(t, ks[1..]);
      assert forall i :: 0 < i < |ks| ==> ks[1..][i - 1] == ks[i];
    }
  }

  /** The classifier rejects a text exactly when, after normalising, none of
      its `in` tests finds a keyword and the text is not exactly "en". */
  lemma RejectedIffNoKeyword(text: string)
    ensures MapLanguageChoice(text).None? <==>
      && Normalize(text) != "en"
      && forall n, i :: 0 <= n < |Rules| && 0 <= i < |Rules[n].anywhere| ==>
           !Contains(Normalize(text), Rules[n].anywhere[i])
  {
    var t := Normalize(text);
    forall n | 0 <= n < |Rules|
      ensures Selects(Rules[n], t) <==>
        (exists i :: 0 <= i < |Rules[n].anywhere| && Contains(t, Rules[n].anywhere[i]))
        || t in Rules[n].whole
    {
      AnyOccursIff(t, Rules[n].anywhere);
    }
  }

  /** A text mentioning Farsi picks Farsi whatever else it mentions: the
      Farsi line is tried first. */
  lemma FarsiHasPriority(text: string)
    requires Contains(Normalize(text), "farsi") || Contains(Normalize(text), "فارسی")
    ensures MapLanguageChoice(text) == Some("fa")
  {
  }

  /** Each of the four labels on the language keyboard (app.py:48-56) selects
      the language it names. */
  lemma LanguageButtonsSelect()
    ensures MapLanguageChoice("فارسی / Farsi") == Some("fa")
    ensures MapLanguageChoice("English") == Some("en")
    ensures MapLanguageChoice("العربية / Arabic") == Some("ar")
    ensures MapLanguageChoice("Русский / Russian") == Some("ru")
  {
    FarsiButton();
    EnglishButton();
    ArabicButton();
    RussianButton();
  }

  lemma FarsiButton()
    ensures MapLanguageChoice("فارسی / Farsi") == Some("fa")
  {
    StripTrimmed("فارسی / Farsi");
    assert Normalize("فارسی / Farsi") == "فارسی / farsi";
    FarsiLabel("فارسی / farsi");
  }

  lemma EnglishButton()
    ensures MapLanguageChoice("English") == Some("en")
  {
    StripTrimmed("English");
    assert Normalize("English") == "english";
    EnglishLabel("english");
  }

  lemma ArabicButton()
    ensures MapLanguageChoice("العربية / Arabic") == Some("ar")
  {
    StripTrimmed("العربية / Arabic");
    assert Normalize("العربية / Arabic") == "العربية / arabic";
    ArabicLabel("العربية / arabic");
  }

  lemma RussianButton()
    ensures MapLanguageChoice("Русский / Russian") == Some("ru")
  {
    StripTrimmed("Русский / Russian");
    RussianLowered("Русский / Russian");
    RussianLabel("русский / russian");
  }

  lemma RussianLowered(text: string)
    requires text == "Русский / Russian"
    ensures Lower(text) == "русский / russian"
  {
  }

  // The lemmas from here to `NoArabicKeyword` only evaluate the classifier on
  // the four normalised keyboard labels; they state nothing beyond
  // `LanguageButtonsSelect`. Each names its label by a parameter, so that
  // the verifier reasons from the label's characters instead of unfolding
  // the classifier on a literal, and each is kept small enough to verify
  // within the resource limit.

  lemma FarsiLabel(t: string)
    requires t == "فارسی / farsi"
    ensures Classify(t) == Some("fa")
  {
    assert OccursAt(t, "فارسی", 0);
  }

  lemma EnglishLabel(t: string)
    requires t == "english"
    ensures Classify(t) == Some("en")
  {
    Absent(t, "farsi", 'f');
    Absent(t, "فارسی", 'ف');
    assert OccursAt(t, "english", 0);
  }

  lemma ArabicLabel(t: string)
    requires t == "العربية / arabic"
    ensures Classify(t) == Some("ar")
  {
    NoFarsiKeyword(t);
    Absent(t, "english", 'e');
    assert OccursAt(t, "العربية", 0);
  }

  lemma NoFarsiKeyword(t: string)
    requires t == "العربية / arabic"
    ensures !Contains(t, "farsi") && !Contains(t, "فارسی")
  {
    Absent(t, "farsi", 'f');
    Absent(t, "فارسی", 'ف');
  }

  lemma RussianLabel(t: string)
    requires t == "русский / russian"
    ensures Classify(t) == Some("ru")
  {
    NoLatinKeyword(t);
    NoArabicKeyword(t);
    assert OccursAt(t, "рус", 0);
  }

  lemma NoLatinKeyword(t: string)
    requires t == "русский / russian"
    ensures !Contains(t, "farsi") && !Contains(t, "english") && !Contains(t, "arabic")
  {
    Absent(t, "farsi", 'f');
    NoEnglishOrArabic(t);
  }

  lemma NoEnglishOrArabic(t: string)
    requires t == "русский / russian"
    ensures !Contains(t, "english") && !Contains(t, "arabic")
  {
    Absent(t, "english", 'e');
    Absent(t, "arabic", 'b');
  }

  lemma NoArabicKeyword(t: string)
    requires t == "русский / russian"
    ensures !Contains(t, "فارسی") && !Contains(t, "العربية") && !Contains(t, "عرب")
  {
    assert forall i :: 0 <= i < |t| ==> t[i] < '\U{0600}';
    AbsentAbove(t, "فارسی", '\U{0600}');
    AbsentAbove(t, "العربية", '\U{0600}');
    AbsentAbove(t, "عرب", '\U{0600}');
  }

  /** A keyword starting with a character above every character of the text
      does not occur in it. */
  lemma AbsentAbove(t: string, k: string, bound: char)
    requires forall i :: 0 <= i < |t| ==> t[i] < bound
    requires k != [] && bound <= k[0]
    ensures !Contains(t, k)
  {
    forall i | 0 <= i && i + |k| <= |t| ensures !OccursAt(t, k, i) {
      assert t[i..i + |k|][0] == t[i];
    }
  }

  /** A keyword holding a character the text lacks does not occur in it. */
  lemma Absent(t: string, k: string, c: char)
    requires c in k && c !in t
    ensures !Contains(t, k)
  {
    var j :| 0 <= j < |k| && k[j] == c;
    forall i | 0 <= i && i + |k| <= |t| ensures !OccursAt(t, k, i) {
      assert t[i..i + |k|][j] == t[i + j];
    }
  }
}

=== FILE: properties.dfy ===
/** What the webhook handler guarantees, stated over `Bot.Step`. */
module BotProperties {
  import opened Wrappers
  import opened Text
  import opened Language
  import opened Salutation
  import opened Bot

  /* ------------------------------------------------------------------ */
  /* Invariants between the three dictionaries                           */
  /* ------------------------------------------------------------------ */

  predicate ValidLang(l: Option<string>) {
    l.Some? && l.value in Codes
  }

  /** Which keys a `REG_STATE` entry holds at each step. */
  predicate RegWellFormed(st: RegState) {
    match st.step
    case LangStep => st.lang.None? && st.name.None?
    case NameStep => ValidLang(st.lang) && st.name.None?
    case PhoneStep => ValidLang(st.lang) && HasName(st.name)
  }

  /** Which keys a `BOOKING_STATE` entry holds at each step. */
  predicate BookingWellFormed(b: BookingState) {
    match b.step
    case ServiceStep => b.service.None? && b.doctor.None?
    case DoctorStep => b.service.Some? && b.doctor.None?
    case DateTimeStep => b.service.Some? && b.doctor.Some?
  }

  /** A profile written by a completed registration. */
  predicate ProfileWellFormed(p: Profile) {
    HasName(p.name) && p.phone.Some? && p.phone.value != [] && ValidLang(p.lang)
  }

  /** A booking in progress implies a profile; a registration in progress
      implies no profile; every entry holds the keys its step needs. */
  ghost predicate Inv(s: State) {
    && s.booking.Keys <= s.profiles.Keys
    && s.reg.Keys !! s.profiles.Keys
    && (forall c :: c in s.reg ==> RegWellFormed(s.reg[c]))
    && (forall c :: c in s.booking ==> BookingWellFormed(s.booking[c]))
    && (forall c :: c in s.profiles ==> ProfileWellFormed(s.profiles[c]))
  }

  lemma InitialInv()
    ensures Inv(Initial)
  {
  }

  /** Every webhook call preserves the invariant. */
  lemma StepPreservesInv(s: State, ev: Event, admin: Option<string>, ai: Option<string>)
    requires Inv(s)
    ensures Inv(Step(s, ev, admin, ai).state)
  {
    if !Malformed(ev) {
      var c, text := ev.chat.value, EventText(ev);
      if text == StartCommand {
        StartPreservesInv(s, c);
      } else if c in s.reg {
        RegisterPreservesInv(s, c, text);
      } else if c !in s.profiles {
        ForceRegistrationPreservesInv(s, c);
      } else {
        var p := GetProfile(s.profiles, c);
        var salute := Saluted(p.name, p.lang.GetOr(DefaultLang));
        if c in s.booking && !StartsWith(text, "/") {
          BookPreservesInv(s, c, text, p, salute, admin);
        } else {
          MenuPreservesInv(s, c, text, p, salute, ai);
        }
      }
    }
  }

  lemma StartPreservesInv(s: State, c: ChatId)
    requires Inv(s)
    ensures Inv(Start(s, c).state)
  {
  }

  lemma RegisterPreservesInv(s: State, c: ChatId, text: string)
    requires Inv(s) && c in s.reg && text != []
    ensures Inv(Register(s, c, text).state)
  {
    var st := s.reg[c];
    var t := Register(s, c, text).state;
    match st.step
    case LangStep =>
      var code := MapLanguageChoice(text);
      if code.Some? {
        assert t.reg == s.reg[c := RegState(NameStep, code, st.name)];
        assert RegWellFormed(t.reg[c]);
      }
    case NameStep =>
      assert t.reg == s.reg[c := RegState(PhoneStep, st.lang, Some(text))];
      assert RegWellFormed(t.reg[c]);
    case PhoneStep =>
      var lang := st.lang.GetOr(DefaultLang);
      assert t.profiles == s.profiles[c := Profile(st.name, Some(text), Some(lang))];
      assert ProfileWellFormed(t.profiles[c]);
      assert c !in s.booking;
  }

  lemma ForceRegistrationPreservesInv(s: State, c: ChatId)
    requires Inv(s) && c !in s.profiles
    ensures Inv(ForceRegistration(s, c).state)
  {
  }

  lemma BookPreservesInv(s: State, c: ChatId, text: string, p: Profile, salute: Salute, admin: Option<string>)
    requires Inv(s) && c in s.booking
    ensures Inv(Book(s, c, text, p, salute, admin).state)
  {
    var b := s.booking[c];
    var t := Book(s, c, text, p, salute, admin).state;
    if Lower(text) !in CancelWords {
      match b.step
      case ServiceStep =>
        assert t.booking == s.booking[c := BookingState(DoctorStep, Some(text), b.doctor)];
      case DoctorStep =>
        assert t.booking == s.booking[c := BookingState(DateTimeStep, b.service, Some(text))];
      case DateTimeStep =>
    }
  }

  lemma MenuPreservesInv(s: State, c: ChatId, text: string, p: Profile, salute: Salute, ai: Option<string>)
    requires Inv(s) && c in s.profiles
    ensures Inv(Menu(s, c, text, p, salute, ai).state)
  {
  }

  /** Any sequence of webhook calls preserves the invariant. */
  lemma {:induction false} RunPreservesInv(s: State, admin: Option<string>, inputs: seq<Input>)
    requires Inv(s)
    ensures Inv(Run(s, admin, inputs))
    decreases |inputs|
  {
    if inputs != [] {
      StepPreservesInv(s, inputs[0].event, admin, inputs[0].ai);
      RunPreservesInv(Step(s, inputs[0].event, admin, inputs[0].ai).state, admin, inputs[1..]);
    }
  }

  /** Every state the process can reach satisfies the invariant. */
  lemma ReachableInv(admin: Option<string>, inputs: seq<Input>)
    ensures Inv(Run(Initial, admin, inputs))
  {
    InitialInv();
    RunPreservesInv(Initial, admin, inputs);
  }

  /* ------------------------------------------------------------------ */
  /* Replies                                                             */
  /* ------------------------------------------------------------------ */

  /** The messages sent to chat `c`, in order. */
  function RepliesTo(effects: seq<Effect>, c: ChatId): (r: seq<Effect>)
    ensures |r| <= |effects|
    ensures forall e :: e in r ==> e in effects && e.Send? && e.to == c
  {
    if effects == [] then []
    else
      (if effects[0].Send? && effects[0].to == c then [effects[0]] else [])
        + RepliesTo(effects[1..], c)
  }

  lemma {:induction false} RepliesToAppend(a: seq<Effect>, b: seq<Effect>, c: ChatId)
    ensures RepliesTo(a + b, c) == RepliesTo(a, c) + RepliesTo(b, c)
    decreases |a|
  {
    if a == [] {
      assert a + b == b;
    } else {
      assert (a + b)[0] == a[0] && (a + b)[1..] == a[1..] + b;
      RepliesToAppend(a[1..], b, c);
    }
  }

  /** The three shapes an answered update's effects take: one reply; the AI
      question followed by the reply; the reply followed by the admin copy. */
  predicate ReplyShape(effects: seq<Effect>, c: ChatId) {
    || (|effects| == 1 && effects[0].Send? && effects[0].to == c)
    || (|effects| == 2 && effects[0].AskAI? && effects[1].Send? && effects[1].to == c)
    || (|effects| == 2 && effects[0].Send? && effects[0].to == c && effects[1].AdminNotify?)
  }

  /** The handler dispatches in a fixed priority: `/start`, registration in
      progress, the registration gate, then a registered chat. */
  lemma StepDispatch(s: State, ev: Event, admin: Option<string>, ai: Option<string>)
    requires !Malformed(ev)
    ensures var c, text := ev.chat.value, EventText(ev);
      Step(s, ev, admin, ai) ==
        if text == StartCommand then Start(s, c)
        else if c in s.reg then Register(s, c, text)
        else if c !in s.profiles then ForceRegistration(s, c)
        else Serve(s, c, text, admin, ai)
  {
  }

  lemma ServeDispatch(s: State, c: ChatId, text: string, admin: Option<string>, ai: Option<string>)
    requires c in s.profiles
    ensures Serve(s, c, text, admin, ai) ==
      if c in s.booking && !StartsWith(text, "/") then Book(s, c, text, s.profiles[c], SaluteFor(s, c), admin)
      else Menu(s, c, text, s.profiles[c], SaluteFor(s, c), ai)
  {
  }

  lemma StepReplyShape(s: State, ev: Event, admin: Option<string>, ai: Option<string>)
    requires !Malformed(ev)
    ensures ReplyShape(Step(s, ev, admin, ai).effects, ev.chat.value)
  {
    var c, text := ev.chat.value, EventText(ev);
    StepDispatch(s, ev, admin, ai);
    if text != StartCommand && c in s.reg {
      RegisterShape(s, c, text);
    } else if text != StartCommand && c in s.profiles {
      ServeDispatch(s, c, text, admin, ai);
      if c in s.booking && !StartsWith(text, "/") {
        BookShape(s, c, text, s.profiles[c], SaluteFor(s, c), admin);
      } else {
        MenuShape(s, c, text, s.profiles[c], SaluteFor(s, c), ai);
      }
    }
  }

  lemma MenuShape(s: State, c: ChatId, text: string, p: Profile, salute: Salute, ai: Option<string>)
    ensures ReplyShape(Menu(s, c, text, p, salute, ai).effects, c)
  {
  }

  lemma RegisterShape(s: State, c: ChatId, text: string)
    requires c in s.reg
    ensures ReplyShape(Register(s, c, text).effects, c)
  {
  }

  lemma BookShape(s: State, c: ChatId, text: string, p: Profile, salute: Salute, admin: Option<string>)
    requires c in s.booking
    ensures ReplyShape(Book(s, c, text, p, salute, admin).effects, c)
  {
  }

  /** A well-formed update gets exactly one reply in its own chat. */
  lemma OneReplyPerEvent(s: State, ev: Event, admin: Option<string>, ai: Option<string>)
    requires !Malformed(ev)
    ensures |RepliesTo(Step(s, ev, admin, ai).effects, ev.chat.value)| == 1
  {
    StepReplyShape(s, ev, admin, ai);
    ShapeHasOneReply(Step(s, ev, admin, ai).effects, ev.chat.value);
  }

  lemma ShapeHasOneReply(effects: seq<Effect>, c: ChatId)
    requires ReplyShape(effects, c)
    ensures |RepliesTo(effects, c)| == 1
  {
    RepliesToAppend([effects[0]], effects[1..], c);
    assert effects == [effects[0]] + effects[1..];
    if |effects| == 2 {
      RepliesToAppend([effects[1]], [], c);
      assert effects[1..] == [effects[1]] + [];
    }
  }

  /** Every message the handler sends goes to the chat the update came from;
      the only other outbound intents are the AI question and the admin copy. */
  lemma EffectsStayInChat(s: State, ev: Event, admin: Option<string>, ai: Option<string>)
    requires !Malformed(ev)
    ensures forall e :: e in Step(s, ev, admin, ai).effects && e.Send? ==> e.to == ev.chat.value
  {
    StepReplyShape(s, ev, admin, ai);
    ShapeStaysInChat(Step(s, ev, admin, ai).effects, ev.chat.value);
  }

  lemma ShapeStaysInChat(effects: seq<Effect>, c: ChatId)
    requires ReplyShape(effects, c)
    ensures forall e :: e in effects && e.Send? ==> e.to == c
  {
    assert forall e :: e in effects ==> e == effects[0] || e == effects[|effects| - 1];
  }

  /* ------------------------------------------------------------------ */
  /* /start and registration                                             */
  /* ------------------------------------------------------------------ */

  /** `/start` wipes the chat's profile and booking and restarts
      registration at the language step, whatever the prior state. */
  lemma StartResets(s: State, ev: Event, admin: Option<string>, ai: Option<string>)
    requires !Malformed(ev) && EventText(ev) == StartCommand
    ensures var r := Step(s, ev, admin, ai); var c := ev.chat.value;
      && c !in r.state.profiles
      && c !in r.state.booking
      && c in r.state.reg && r.state.reg[c] == RegState(LangStep, None, None)
      && r.effects == [Send(c, Welcome, Plain, LanguageKeyboard)]
  {
  }

  /** At the language step, rejected text changes nothing and re-prompts;
      accepted text records the code and moves on to the name. */
  lemma RegistrationLanguageStep(s: State, ev: Event, admin: Option<string>, ai: Option<string>)
    requires !Malformed(ev) && EventText(ev) != StartCommand
    requires ev.chat.value in s.reg && s.reg[ev.chat.value].step == LangStep
    ensures var r := Step(s, ev, admin, ai); var c := ev.chat.value;
      var code := MapLanguageChoice(EventText(ev));
      && (code.None? ==>
            r.state == s && r.effects == [Send(c, ChooseLanguageAgain, Plain, LanguageKeyboard)])
      && (code.Some? ==>
            && r.state == s.(reg := s.reg[c := RegState(NameStep, code, s.reg[c].name)])
            && r.effects == [Send(c, AskName(code.value), Plain, NoKeyboard)])
  {
  }

  /** At the name step the text is stored as it is and the phone is asked. */
  lemma RegistrationNameStep(s: State, ev: Event, admin: Option<string>, ai: Option<string>)
    requires !Malformed(ev) && EventText(ev) != StartCommand
    requires ev.chat.value in s.reg && s.reg[ev.chat.value].step == NameStep
    ensures var r := Step(s, ev, admin, ai); var c := ev.chat.value;
      && r.state == s.(reg := s.reg[c := RegState(PhoneStep, s.reg[c].lang, Some(EventText(ev)))])
      && r.effects == [Send(c, AskPhone(s.reg[c].lang.GetOr("fa")), Plain, NoKeyboard)]
  {
  }

  /** At the phone step the typed text becomes the phone of a new profile,
      the language defaulting to "fa", and the registration state goes. */
  lemma RegistrationPhoneStep(s: State, ev: Event, admin: Option<string>, ai: Option<string>)
    requires !Malformed(ev) && EventText(ev) != StartCommand
    requires ev.chat.value in s.reg && s.reg[ev.chat.value].step == PhoneStep
    ensures var r := Step(s, ev, admin, ai); var c := ev.chat.value; var st := s.reg[c];
      && r.state.profiles == s.profiles[c := Profile(st.name, Some(EventText(ev)), Some(st.lang.GetOr("fa")))]
      && r.state.reg == s.reg - {c}
      && r.state.booking == s.booking
      && r.effects == [Send(c, Registered(st.name, st.lang.GetOr("fa")), Plain, MainKeyboard)]
  {
  }

  /** A registration in progress takes precedence over everything but
      `/start`: even a menu button or a text sent while a booking is open gets
      a plain registration reply, no booking step runs and the AI is not
      asked. */
  lemma RegistrationTakesPrecedence(s: State, ev: Event, admin: Option<string>, ai: Option<string>)
    requires !Malformed(ev) && EventText(ev) != StartCommand && ev.chat.value in s.reg
    ensures var r := Step(s, ev, admin, ai);
      && r.state.booking == s.booking
      && |r.effects| == 1 && r.effects[0].Send? && r.effects[0].salute == Plain
      && (|| r.effects[0].kind.ChooseLanguageAgain? || r.effects[0].kind.AskName?
          || r.effects[0].kind.AskPhone? || r.effects[0].kind.Registered?)
  {
    StepDispatch(s, ev, admin, ai);
    RegisterReplies(s, ev.chat.value, EventText(ev));
  }

  lemma RegisterReplies(s: State, c: ChatId, text: string)
    requires c in s.reg
    ensures var r := Register(s, c, text);
      && r.state.booking == s.booking
      && |r.effects| == 1 && r.effects[0].Send? && r.effects[0].salute == Plain
      && (|| r.effects[0].kind.ChooseLanguageAgain? || r.effects[0].kind.AskName?
          || r.effects[0].kind.AskPhone? || r.effects[0].kind.Registered?)
  {
  }

  /** Profiles are written only by `/start` (which removes one) and by the
      phone step (which creates one). */
  lemma ProfilesKeptOutsideStartAndPhone(s: State, ev: Event, admin: Option<string>, ai: Option<string>)
    requires !Malformed(ev) ==>
      && EventText(ev) != StartCommand
      && !(ev.chat.value in s.reg && s.reg[ev.chat.value].step == PhoneStep)
    ensures Step(s, ev, admin, ai).state.profiles == s.profiles
  {
    if !Malformed(ev) {
      var c, text := ev.chat.value, EventText(ev);
      StepDispatch(s, ev, admin, ai);
      if c in s.reg {
        RegisterKeepsProfiles(s, c, text);
      } else if c in s.profiles {
        ServeDispatch(s, c, text, admin, ai);
      }
    }
  }

  lemma RegisterKeepsProfiles(s: State, c: ChatId, text: string)
    requires c in s.reg && s.reg[c].step != PhoneStep
    ensures Register(s, c, text).state.profiles == s.profiles
  {
  }

  /** A chat with no profile and no registration in progress is sent to the
      language step with a prompt, whatever it typed: no booking step, menu
      reply or AI question is reachable. */
  lemma UnregisteredGoesToRegistration(s: State, ev: Event, admin: Option<string>, ai: Option<string>)
    requires !Malformed(ev)
    requires ev.chat.value !in s.profiles && ev.chat.value !in s.reg
    ensures var r := Step(s, ev, admin, ai); var c := ev.chat.value;
      && c !in r.state.profiles
      && c in r.state.reg && r.state.reg[c] == RegState(LangStep, None, None)
      && (c in r.state.booking ==> c in s.booking && r.state.booking[c] == s.booking[c])
      && (r.effects == [Send(c, Welcome, Plain, LanguageKeyboard)]
          || r.effects == [Send(c, RegisterFirst, Plain, LanguageKeyboard)])
  {
  }

  /* ------------------------------------------------------------------ */
  /* Booking                                                             */
  /* ------------------------------------------------------------------ */

  /** The update is handled by the booking flow (app.py:303). */
  predicate InBookingFlow(s: State, ev: Event) {
    && !Malformed(ev)
    && EventText(ev) != StartCommand
    && ev.chat.value !in s.reg
    && ev.chat.value in s.profiles
    && ev.chat.value in s.booking
    && !StartsWith(EventText(ev), "/")
  }

  function SaluteFor(s: State, c: ChatId): Salute
    requires c in s.profiles
  {
    Saluted(s.profiles[c].name, s.profiles[c].lang.GetOr("fa"))
  }

  /** A cancel word, in any letter case, drops the booking and confirms. */
  lemma BookingCancel(s: State, ev: Event, admin: Option<string>, ai: Option<string>)
    requires InBookingFlow(s, ev) && Lower(EventText(ev)) in CancelWords
    ensures var r := Step(s, ev, admin, ai); var c := ev.chat.value;
      && r.state == s.(booking := s.booking - {c})
      && r.effects == [Send(c, BookingCancelled, SaluteFor(s, c), MainKeyboard)]
  {
  }

  /** Otherwise the text is stored as it is: service, then doctor, then the
      preferred date and time, which completes the request. */
  lemma BookingAdvance(s: State, ev: Event, admin: Option<string>, ai: Option<string>)
    requires InBookingFlow(s, ev) && Lower(EventText(ev)) !in CancelWords
    ensures var r := Step(s, ev, admin, ai); var c := ev.chat.value;
      var b := s.booking[c]; var text := EventText(ev);
      && r.state.profiles == s.profiles && r.state.reg == s.reg
      && (b.step == ServiceStep ==>
            && r.state.booking == s.booking[c := BookingState(DoctorStep, Some(text), b.doctor)]
            && r.effects == [Send(c, AskDoctor, SaluteFor(s, c), MainKeyboard)])
      && (b.step == DoctorStep ==>
            && r.state.booking == s.booking[c := BookingState(DateTimeStep, b.service, Some(text))]
            && r.effects == [Send(c, AskDateTime, SaluteFor(s, c), MainKeyboard)])
      && (b.step == DateTimeStep ==>
            var p := s.profiles[c];
            var summary := Summary(p.name, p.phone, b.service, b.doctor, text, c);
            && r.state.booking == s.booking - {c}
            && r.effects[0] == Send(c, BookingReceived(summary), SaluteFor(s, c), MainKeyboard)
            && (AdminConfigured(admin) ==> r.effects == [r.effects[0], AdminNotify(admin.value, summary)])
            && (!AdminConfigured(admin) ==> r.effects == [r.effects[0]]))
  {
    StepDispatch(s, ev, admin, ai);
    ServeDispatch(s, ev.chat.value, EventText(ev), admin, ai);
  }

  /** In a reachable state a completed booking request carries every field
      the user gave, and the admin copy is the same summary. */
  lemma BookingSummaryComplete(s: State, ev: Event, admin: Option<string>, ai: Option<string>)
    requires Inv(s)
    requires InBookingFlow(s, ev) && Lower(EventText(ev)) !in CancelWords
    requires s.booking[ev.chat.value].step == DateTimeStep
    ensures var r := Step(s, ev, admin, ai); var sm := r.effects[0].kind.summary;
      && r.effects[0].kind.BookingReceived?
      && HasName(sm.name) && sm.phone.Some? && sm.service.Some? && sm.doctor.Some?
      && sm.datetime == EventText(ev)
      && (AdminConfigured(admin) ==> r.effects[1] == AdminNotify(admin.value, sm))
  {
    BookingAdvance(s, ev, admin, ai);
  }

  /** A command other than `/start` bypasses a booking in progress: the
      booking state is left as it is and the menu or the AI answers. */
  lemma CommandBypassesBooking(s: State, ev: Event, admin: Option<string>, ai: Option<string>)
    requires !Malformed(ev) && EventText(ev) != StartCommand && StartsWith(EventText(ev), "/")
    requires ev.chat.value !in s.reg && ev.chat.value in s.profiles && ev.chat.value in s.booking
    ensures Step(s, ev, admin, ai).state == s
  {
    StepDispatch(s, ev, admin, ai);
    ServeDispatch(s, ev.chat.value, EventText(ev), admin, ai);
  }

  /** A booking state appears exactly when a registered chat with no
      registration in progress presses the "book an appointment" button, and
      it starts at the service step. */
  lemma BookingStartsOnlyFromButton(s: State, ev: Event, admin: Option<string>, ai: Option<string>)
    requires !Malformed(ev) && ev.chat.value !in s.booking
    ensures var t := Step(s, ev, admin, ai).state; var c := ev.chat.value;
      && (c in t.booking <==> EventText(ev) == BookButton && c in s.profiles && c !in s.reg)
      && (c in t.booking ==> t.booking[c] == BookingState(ServiceStep, None, None))
  {
    var c, text := ev.chat.value, EventText(ev);
    StepDispatch(s, ev, admin, ai);
    if text != StartCommand && c in s.reg {
      RegisterKeepsBooking(s, c, text);
    } else if text != StartCommand && c in s.profiles {
      ServeDispatch(s, c, text, admin, ai);
      MenuOpensBooking(s, c, text, s.profiles[c], SaluteFor(s, c), ai);
    }
  }

  lemma RegisterKeepsBooking(s: State, c: ChatId, text: string)
    requires c in s.reg
    ensures Register(s, c, text).state.booking == s.booking
  {
  }

  lemma MenuOpensBooking(s: State, c: ChatId, text: string, p: Profile, salute: Salute, ai: Option<string>)
    requires c !in s.booking
    ensures var t := Menu(s, c, text, p, salute, ai).state;
      && (c in t.booking <==> text == BookButton)
      && (c in t.booking ==> t.booking[c] == BookingState(ServiceStep, None, None))
  {
  }

  /* ------------------------------------------------------------------ */
  /* Menu and AI fallback                                                */
  /* ------------------------------------------------------------------ */

  predicate AsksAi(effects: seq<Effect>) {
    exists i :: 0 <= i < |effects| && effects[i].AskAI?
  }

  /** The update falls through every branch to the AI (app.py:465). */
  predicate ReachesAi(s: State, ev: Event) {
    && !Malformed(ev)
    && EventText(ev) != StartCommand
    && ev.chat.value !in s.reg
    && ev.chat.value in s.profiles
    && (ev.chat.value !in s.booking || StartsWith(EventText(ev), "/"))
    && EventText(ev) !in MenuButtons
  }

  /** The AI is asked exactly when the update is from a registered chat, is
      not `/start`, is not consumed by a booking in progress and is not a menu
      button; it is then asked the text with the profile's name and language
      (default "fa"), and its answer is sent back saluted. */
  lemma AiFallback(s: State, ev: Event, admin: Option<string>, ai: Option<string>)
    ensures AsksAi(Step(s, ev, admin, ai).effects) <==> ReachesAi(s, ev)
    ensures ReachesAi(s, ev) ==>
      var c := ev.chat.value; var p := s.profiles[c];
      Step(s, ev, admin, ai) == Outcome(s, [
        AskAI(EventText(ev), p.name, p.lang.GetOr("fa")),
        Send(c, AiAnswer(ai.GetOr(AiApology)), SaluteFor(s, c), MainKeyboard)])
  {
    if !Malformed(ev) {
      StepReplyShape(s, ev, admin, ai);
      AsksAiFirst(Step(s, ev, admin, ai).effects, ev.chat.value);
      AiFallbackRoute(s, ev, admin, ai);
    }
  }

  /** In an answered update the AI question, if any, comes first. */
  lemma AsksAiFirst(effects: seq<Effect>, c: ChatId)
    requires ReplyShape(effects, c)
    ensures AsksAi(effects) <==> effects[0].AskAI?
  {
    if AsksAi(effects) {
      var i :| 0 <= i < |effects| && effects[i].AskAI?;
      assert i == 0;
    }
  }

  lemma AiFallbackRoute(s: State, ev: Event, admin: Option<string>, ai: Option<string>)
    requires !Malformed(ev)
    ensures Step(s, ev, admin, ai).effects[0].AskAI? <==> ReachesAi(s, ev)
    ensures ReachesAi(s, ev) ==>
      var c := ev.chat.value; var p := s.profiles[c];
      Step(s, ev, admin, ai) == Outcome(s, [
        AskAI(EventText(ev), p.name, p.lang.GetOr("fa")),
        Send(c, AiAnswer(ai.GetOr(AiApology)), SaluteFor(s, c), MainKeyboard)])
  {
    var c, text := ev.chat.value, EventText(ev);
    if text == StartCommand || c in s.reg || c !in s.profiles {
      NoAiBeforeServe(s, ev, admin, ai);
    } else {
      AiWhenServed(s, ev, admin, ai);
    }
  }

  lemma NoAiBeforeServe(s: State, ev: Event, admin: Option<string>, ai: Option<string>)
    requires !Malformed(ev)
    requires EventText(ev) == StartCommand || ev.chat.value in s.reg || ev.chat.value !in s.profiles
    ensures !Step(s, ev, admin, ai).effects[0].AskAI?
  {
    var c, text := ev.chat.value, EventText(ev);
    StepDispatch(s, ev, admin, ai);
    if text != StartCommand && c in s.reg {
      RegisterShape(s, c, text);
    }
  }

  lemma AiWhenServed(s: State, ev: Event, admin: Option<string>, ai: Option<string>)
    requires !Malformed(ev)
    requires EventText(ev) != StartCommand && ev.chat.value !in s.reg && ev.chat.value in s.profiles
    ensures Step(s, ev, admin, ai).effects[0].AskAI? <==> ReachesAi(s, ev)
    ensures ReachesAi(s, ev) ==>
      var c := ev.chat.value; var p := s.profiles[c];
      Step(s, ev, admin, ai) == Outcome(s, [
        AskAI(EventText(ev), p.name, p.lang.GetOr("fa")),
        Send(c, AiAnswer(ai.GetOr(AiApology)), SaluteFor(s, c), MainKeyboard)])
  {
    var c, text := ev.chat.value, EventText(ev);
    StepDispatch(s, ev, admin, ai);
    ServeDispatch(s, c, text, admin, ai);
    if c in s.booking && !StartsWith(text, "/") {
      BookNeverAsksAi(s, c, text, s.profiles[c], SaluteFor(s, c), admin);
    } else {
      MenuAsksAi(s, c, text, s.profiles[c], SaluteFor(s, c), ai);
    }
  }

  lemma BookNeverAsksAi(s: State, c: ChatId, text: string, p: Profile, salute: Salute, admin: Option<string>)
    requires c in s.booking
    ensures !Book(s, c, text, p, salute, admin).effects[0].AskAI?
  {
  }

  /** The menu asks the AI exactly for the texts that are not buttons. */
  lemma MenuAsksAi(s: State, c: ChatId, text: string, p: Profile, salute: Salute, ai: Option<string>)
    ensures Menu(s, c, text, p, salute, ai).effects[0].AskAI? <==> text !in MenuButtons
    ensures text !in MenuButtons ==> Menu(s, c, text, p, salute, ai) == Outcome(s, [
        AskAI(text, p.name, p.lang.GetOr(DefaultLang)),
        Send(c, AiAnswer(ai.GetOr(AiApology)), salute, MainKeyboard)])
  {
  }

  /** The text sent back for an AI answer is the answer behind the user's
      salutation: it ends with the answer, and is strictly longer exactly when
      the profile has a name. */
  lemma AiReplyIsSalutedAnswer(s: State, ev: Event, admin: Option<string>, ai: Option<string>,
                               body: MsgKind -> string)
    requires ReachesAi(s, ev)
    ensures var r := Step(s, ev, admin, ai); var p := s.profiles[ev.chat.value];
      var answer := ai.GetOr(AiApology); var text := ReplyText(r.effects[1], body);
      && text == DecorateWithName(answer, p.name, Some(p.lang.GetOr("fa")))
      && text[|text| - |answer|..] == answer
      && (HasName(p.name) <==> |text| > |answer|)
  {
    AiFallback(s, ev, admin, ai);
  }

  /** Each menu button gets its fixed reply; only the booking button changes
      state. */
  lemma MenuButtonReplies(s: State, ev: Event, admin: Option<string>, ai: Option<string>)
    requires !Malformed(ev) && EventText(ev) in MenuButtons
    requires ev.chat.value !in s.reg && ev.chat.value in s.profiles && ev.chat.value !in s.booking
    ensures var r := Step(s, ev, admin, ai); var c := ev.chat.value; var text := EventText(ev);
      var kind :=
        if text == ServicesButton then ServicesList
        else if text == HoursButton then WorkingHours
        else if text == AddressButton then ClinicAddress
        else if text == BookButton then AskService
        else AskSecretary;
      && r.effects == [Send(c, kind, SaluteFor(s, c), MainKeyboard)]
      && (text == BookButton ==> r.state == s.(booking := s.booking[c := BookingState(ServiceStep, None, None)]))
      && (text != BookButton ==> r.state == s)
  {
    var c := ev.chat.value;
    StepDispatch(s, ev, admin, ai);
    ServeDispatch(s, c, EventText(ev), admin, ai);
  }
}

=== FILE: salutation.dfy ===
/** `decorate_with_name` (app.py:87-97): every reply to a registered user is
    prefixed with a salutation naming the user in the user's language. */
module Salutation {
  import opened Wrappers
  import opened Text

  /** Python's truthiness of `name`: `None` and `""` are both false. */
  predicate HasName(name: Option<string>) {
    name.Some? && name.value != []
  }

  function DecorateWithName(raw: string, name: Option<string>, lang: Option<string>): (r: string)
    ensures !HasName(name) ==> r == raw
    ensures HasName(name) ==>
      && |raw| < |r|
      && r[|r| - |raw|..] == raw
      && Contains(r[..|r| - |raw|], name.value)
  {
    if !HasName(name) then raw
    else
      var n := name.value;
      var prefix :=
        if lang == Some("fa") then n + " عزیز، "
        else if lang == Some("ar") then "عزيزي/عزيزتي " + n + "، "
        else if lang == Some("ru") then n + ", "
        else "Dear " + n + ", ";
      assert OccursAt(prefix, n, if lang == Some("fa") || lang == Some("ru") then 0
                                 else if lang == Some("ar") then 13 else 5);
      assert (prefix + raw)[..|prefix|] == prefix;
      prefix + raw
  }

  /** The salutation depends only on the name and the language: decorating any
      message puts the same prefix in front of it as decorating the empty one. */
  lemma DecorationIsPrefix(raw: string, name: Option<string>, lang: Option<string>)
    ensures DecorateWithName(raw, name, lang) == DecorateWithName([], name, lang) + raw
  {
  }

  /** Two different messages never decorate to the same text. */
  lemma DecorateInjective(a: string, b: string, name: Option<string>, lang: Option<string>)
    requires DecorateWithName(a, name, lang) == DecorateWithName(b, name, lang)
    ensures a == b
  {
    DecorationIsPrefix(a, name, lang);
    DecorationIsPrefix(b, name, lang);
    var p := DecorateWithName([], name, lang);
    assert (p + a)[|p|..] == a && (p + b)[|p|..] == b;
  }

  /** Only "fa", "ar" and "ru" have their own salutation; any other code, and
      a missing one, gets the English form "Dear <name>, ". */
  lemma OtherLanguagesUseEnglish(raw: string, name: Option<string>, lang: Option<string>)
    requires HasName(name)
    requires lang !in {Some("fa"), Some("ar"), Some("ru")}
    ensures DecorateWithName(raw, name, lang) == "Dear " + name.value + ", " + raw
    ensures DecorateWithName(raw, name, lang) == DecorateWithName(raw, name, None)
  {
  }
}

=== FILE: text.dfy ===
/** Character-level models of the Python string operations the bot relies on:
    `str.strip()`, `str.lower()`, the substring test `k in t` and
    `str.startswith`. Strings are sequences of Unicode scalar values. */
module Text {

  /** The characters `str.strip()` removes when called without an argument:
      exactly the code points for which Python's `str.isspace()` holds. */
  predicate IsSpace(c: char) {
    || ('\U{0009}' <= c <= '\U{000D}')
    || ('\U{001C}' <= c <= '\U{0020}')
    || c == '\U{0085}' || c == '\U{00A0}' || c == '\U{1680}'
    || ('\U{2000}' <= c <= '\U{200A}')
    || c == '\U{2028}' || c == '\U{2029}' || c == '\U{202F}'
    || c == '\U{205F}' || c == '\U{3000}'
  }

  predicate AllSpace(s: string) {
    forall i :: 0 <= i < |s| ==> IsSpace(s[i])
  }

  /** `r` is what stripping `s` must give: a contiguous piece of `s` reached by
      cutting only whitespace from both ends, and neither starting nor ending
      with whitespace. */
  ghost predicate IsStripOf(s: string, r: string) {
    exists i :: StrippedAt(s, r, i)
  }

  ghost predicate StrippedAt(s: string, r: string, i: int) {
    && 0 <= i && i + |r| <= |s|
    && r == s[i..i + |r|]
    && AllSpace(s[..i])
    && AllSpace(s[i + |r|..])
    && (r == [] || (!IsSpace(r[0]) && !IsSpace(r[|r| - 1])))
  }

  /** The end of the run of whitespace that starts at `i`: where `strip`
      stops cutting from the front. */
  function SpaceRunEnd(s: string, i: nat): (n: nat)
    requires i <= |s|
    ensures i <= n <= |s|
    ensures forall k :: i <= k < n ==> IsSpace(s[k])
    ensures n == |s| || !IsSpace(s[n])
    decreases |s| - i
  {
    if i < |s| && IsSpace(s[i]) then SpaceRunEnd(s, i + 1) else i
  }

  /** The start of the run of whitespace that ends at `j`, not going below
      `lo`: where `strip` stops cutting from the back. */
  function SpaceRunStart(s: string, lo: nat, j: nat): (n: nat)
    requires lo <= j <= |s|
    ensures lo <= n <= j
    ensures forall k :: n <= k < j ==> IsSpace(s[k])
    ensures n == lo || !IsSpace(s[n - 1])
  {
    if j > lo && IsSpace(s[j - 1]) then SpaceRunStart(s, lo, j - 1) else j
  }

  /** `str.strip()`: cut the whitespace at the front, then the whitespace at
      the back of what is left. */
  function Strip(s: string): (r: string)
    ensures |r| <= |s|
    ensures r == [] || (!IsSpace(r[0]) && !IsSpace(r[|r| - 1]))
  {
    var a := SpaceRunEnd(s, 0);
    s[a..SpaceRunStart(s, a, |s|)]
  }

  /** Stripping cuts exactly a strip. */
  lemma StripSpec(s: string)
    ensures IsStripOf(s, Strip(s))
  {
    var a := SpaceRunEnd(s, 0);
    var b := SpaceRunStart(s, a, |s|);
    var r := s[a..b];
    forall k | 0 <= k < a ensures IsSpace(s[..a][k]) {
      assert s[..a][k] == s[k];
    }
    forall k | 0 <= k < |s| - b ensures IsSpace(s[b..][k]) {
      assert s[b..][k] == s[b + k];
    }
    assert a + |r| == b;
    if r != [] {
      assert r[0] == s[a] && r[|r| - 1] == s[b - 1];
    }
    assert StrippedAt(s, r, a);
  }

  /** Stripping leaves nothing exactly when the text is all whitespace. */
  lemma StripBlank(s: string)
    ensures Strip(s) == [] <==> AllSpace(s)
  {
    StripSpec(s);
    if AllSpace(s) {
      assert s[..0] == [] && s[0..] == s;
      assert StrippedAt(s, [], 0);
      StripOfUnique(s, Strip(s), []);
    }
  }

  /** Stripping has exactly one possible result. */
  lemma StripOfUnique(s: string, r1: string, r2: string)
    requires IsStripOf(s, r1) && IsStripOf(s, r2)
    ensures r1 == r2
  {
    var i1 :| StrippedAt(s, r1, i1);
    var i2 :| StrippedAt(s, r2, i2);
    if r1 != [] && r2 != [] {
      NonSpaceBounds(s, r1, i1, r2, i2);
      NonSpaceBounds(s, r2, i2, r1, i1);
    } else if r1 != [] {
      NonSpaceBounds(s, r1, i1, r2, i2);
    } else if r2 != [] {
      NonSpaceBounds(s, r2, i2, r1, i1);
    }
  }

  /** The first and last non-whitespace characters of a stripped text lie
      inside every other candidate strip. */
  lemma NonSpaceBounds(s: string, r: string, i: int, q: string, j: int)
    requires StrippedAt(s, r, i) && StrippedAt(s, q, j) && r != []
    ensures q != [] && j <= i && i + |r| <= j + |q|
  {
    assert r[0] == s[i] && r[|r| - 1] == s[i + |r| - 1];
    forall k | 0 <= k < j ensures IsSpace(s[k]) {
      assert s[..j][k] == s[k];
    }
    forall k | j + |q| <= k < |s| ensures IsSpace(s[k]) {
      assert s[j + |q|..][k - j - |q|] == s[k];
    }
  }

  /** Stripping twice is stripping once. */
  lemma StripIdempotent(s: string)
    ensures Strip(Strip(s)) == Strip(s)
  {
    var r := Strip(s);
    StripSpec(s);
    StripSpec(r);
    assert StrippedAt(r, r, 0) by {
      assert r[..0] == [] && r[|r|..] == [];
    }
    StripOfUnique(r, Strip(r), r);
  }

  /** A text that neither starts nor ends with whitespace is its own strip. */
  lemma StripTrimmed(s: string)
    requires s == [] || (!IsSpace(s[0]) && !IsSpace(s[|s| - 1]))
    ensures Strip(s) == s
  {
    assert StrippedAt(s, s, 0) by {
      assert s[..0] == [] && s[|s|..] == [];
    }
    StripSpec(s);
    StripOfUnique(s, Strip(s), s);
  }

  /** `str.lower()` on one character: ASCII and the basic Cyrillic block. */
  function LowerChar(c: char): char {
    if 'A' <= c <= 'Z' then (c as int + 0x20) as char
    else if '\U{0410}' <= c <= '\U{042F}' then (c as int + 0x20) as char
    else if '\U{0400}' <= c <= '\U{040F}' then (c as int + 0x50) as char
    else c
  }

  /** The capital letters `LowerChar` maps to small ones. */
  predicate IsUpper(c: char) {
    'A' <= c <= 'Z' || '\U{0400}' <= c <= '\U{042F}'
  }

  /** `str.upper()` on the small letters of the same blocks: the inverse
      table, written out on its own. */
  function UpperChar(c: char): char {
    if 'a' <= c <= 'z' then (c as int - 0x20) as char
    else if '\U{0430}' <= c <= '\U{044F}' then (c as int - 0x20) as char
    else if '\U{0450}' <= c <= '\U{045F}' then (c as int - 0x50) as char
    else c
  }

  /** Position `i` of `r` is position `i` of `s` lowered: no capital letter
      is left there, a capital became the small letter whose upper case it
      is, and a character that was not a capital is kept. */
  predicate LoweredAt(s: string, r: string, i: int)
    requires 0 <= i < |s| && |r| == |s|
  {
    && !IsUpper(r[i])
    && (IsUpper(s[i]) ==> UpperChar(r[i]) == s[i])
    && (!IsUpper(s[i]) ==> r[i] == s[i])
  }

  /** `str.lower()`, one character at a time: the result has the same length
      and is lowered at every position. */
  function Lower(s: string): (r: string)
    ensures |r| == |s|
    ensures forall i :: 0 <= i < |s| ==> LoweredAt(s, r, i)
  {
    seq(|s|, i requires 0 <= i < |s| => LowerChar(s[i]))
  }

  /** The per-position contract of `Lower` leaves no freedom: any text
      lowered at every position of `s` is `Lower(s)`. */
  lemma LowerUnique(s: string, r: string)
    requires |r| == |s|
    requires forall i :: 0 <= i < |s| ==> LoweredAt(s, r, i)
    ensures r == Lower(s)
  {
    forall i | 0 <= i < |s| ensures r[i] == Lower(s)[i] {
      assert LoweredAt(s, r, i) && LoweredAt(s, Lower(s), i);
    }
  }

  /** Lowering never creates or destroys whitespace, so it cannot move the
      boundaries `strip` cuts at. */
  lemma LowerCharKeepsSpace(c: char)
    ensures IsSpace(LowerChar(c)) <==> IsSpace(c)
  {
  }

  /** Lowering an already lowered character changes nothing. */
  lemma LowerCharIdempotent(c: char)
    ensures LowerChar(LowerChar(c)) == LowerChar(c)
  {
  }

  lemma LowerIdempotent(s: string)
    ensures Lower(Lower(s)) == Lower(s)
  {
    forall i | 0 <= i < |s| ensures Lower(Lower(s))[i] == Lower(s)[i] {
      LowerCharIdempotent(s[i]);
    }
  }

  /** Lowering a piece of a text is the same piece of the lowered text. */
  lemma LowerSlice(s: string, a: int, b: int)
    requires 0 <= a <= b <= |s|
    ensures Lower(s[a..b]) == Lower(s)[a..b]
  {
  }

  lemma LowerAllSpace(s: string)
    ensures AllSpace(Lower(s)) <==> AllSpace(s)
  {
    forall k | 0 <= k < |s| ensures IsSpace(Lower(s)[k]) <==> IsSpace(s[k]) {
      LowerCharKeepsSpace(s[k]);
    }
  }

  /** `t.strip().lower()` and `t.lower().strip()` agree. */
  lemma StripLowerCommute(s: string)
    ensures Strip(Lower(s)) == Lower(Strip(s))
  {
    var r := Strip(s);
    StripSpec(s);
    StripSpec(Lower(s));
    var i :| StrippedAt(s, r, i);
    LowerStrippedAt(s, r, i);
    StripOfUnique(Lower(s), Strip(Lower(s)), Lower(r));
  }

  /** Lowering both a text and one of its strips keeps the strip relation. */
  lemma LowerStrippedAt(s: string, r: string, i: int)
    requires StrippedAt(s, r, i)
    ensures StrippedAt(Lower(s), Lower(r), i)
  {
    var ls := Lower(s);
    LowerSlice(s, i, i + |r|);
    LowerPrefix(s, i);
    LowerSuffix(s, i + |r|);
    LowerAllSpace(s[..i]);
    LowerAllSpace(s[i + |r|..]);
    if r != [] {
      LowerCharKeepsSpace(r[0]);
      LowerCharKeepsSpace(r[|r| - 1]);
    }
  }

  lemma LowerPrefix(s: string, n: int)
    requires 0 <= n <= |s|
    ensures Lower(s[..n]) == Lower(s)[..n]
  {
  }

  lemma LowerSuffix(s: string, n: int)
    requires 0 <= n <= |s|
    ensures Lower(s[n..]) == Lower(s)[n..]
  {
  }

  /** `k` occurs in `t` starting at position `i`. */
  ghost predicate OccursAt(t: string, k: string, i: int) {
    0 <= i && i + |k| <= |t| && t[i..i + |k|] == k
  }

  /** Python's `k in t` for strings: `k` occurs somewhere in `t`. */
  function Contains(t: string, k: string): (r: bool)
    ensures r <==> exists i :: OccursAt(t, k, i)
  {
    OccursFrom(t, k, 0)
  }

  /** `k` occurs in `t` at position `i` or later. */
  function OccursFrom(t: string, k: string, i: nat): (r: bool)
    ensures r <==> exists j :: i <= j && OccursAt(t, k, j)
    decreases |t| - i
  {
    if |t| < i + |k| then false
    else if t[i..i + |k|] == k then
      assert OccursAt(t, k, i);
      true
    else
      var r := OccursFrom(t, k, i + 1);
      assert forall j :: i <= j && OccursAt(t, k, j) ==> i + 1 <= j;
      r
  }

  /** Python's `t.startswith(p)`. */
  predicate StartsWith(t: string, p: string): (r: bool)
    ensures r <==> OccursAt(t, p, 0)
  {
    p <= t
  }
}

=== FILE: wrappers.dfy ===
/** The optional value used wherever the bot reads a dictionary key that may be
    absent (Python's `dict.get` returning `None`). */
module Wrappers {

  datatype Option<+T> = None | Some(value: T) {

    /** The value if present, otherwise `default` (Python's `d.get(k, default)`). */
    function GetOr(default: T): T {
      match this
      case Some(v) => v
      case None => default
    }
  }
}
